=== FILE: README.md ===
# Subscription service: a Dafny model

This project models the core of a small Go HTTP service that keeps subscription records.
Each record has an id, a service name, a price, an owning user, a start date and an
optional finish date. The service offers create, get, update, delete and list, plus a
"total cost" query that sums prices under four optional filters. Three pieces are modelled:

- **The store** (`internal/repository/subscription.go`, module `Store`). The PostgreSQL
  table is an abstract map from id to record, `Store.Table`. Each SQL statement is a pure
  function from the table to its result and the table it leaves behind. The TotalCost
  WHERE clause is the predicate `Store.Matches` over a cast `Store.Filter`. The sum
  `Store.Total` is defined over the table's key set.
- **The wire form** (`internal/dto/subscription.go`, module `Dto`). These are the
  conversions between the record and its all-string DTO: NULL fields become empty
  strings, a blank id is replaced by a generated one, a blank finish date means
  open-ended, and the empty path id is NULL rather than an error.
- **The handlers** (`internal/handlers/handler.go`, module `Handlers`). Each of the six
  endpoints is a function from the request's parts and the database to a `Handled`
  value. That value holds the status code, the response body, the repository call made
  (if any) and the table afterwards.

Supporting modules:
- `Records` holds the record and error types (`internal/repository/types.go`).
- `Matching` holds the case-insensitive text matching behind the service filter.
- `StoreLemmas`, `DtoLemmas` and `Scenarios` hold the properties that relate several operations.

Calls into code outside the model are parameters:
- `Dto.Lib` holds `uuid.Parse`, `uuid.UUID.String`, `time.Parse` and `Time.Format` with
  the layout `2006-01-02`.
- `Store.Casts` holds PostgreSQL's `::uuid` and `::date` casts.
- `uuid.New()` is the `generated` argument.
- A failing database connection is `Handlers.Db.fault`.

The only assumptions made about these calls are the ones stated where they are used:
- `Dto.Lawful`: the printed form of a UUID parses back, and the empty string parses as
  neither a UUID nor a date.
- `Dto.DateRoundTrips`: a date's printed form parses back. This holds only for four-digit
  years, because the layout parses exactly four year digits.

Two details of the code need a word:
- The service filter is an ILIKE pattern, not a plain substring test.
  `Matching.ServiceFilterAsWritten` is that pattern match as the query performs it.
  `Store.Matches` uses the case-insensitive substring test the filter is meant to be,
  `Matching.ContainsFold`. The two agree on filter text without `%`, `_` or `\`; see Findings.
- The driver's no-rows error from GetById is a different value (`NoRows`) from the
  repository's `errNotFound` (`NotFound`) returned by Update and Delete. The model keeps both.

## Model

| member | source | states |
|---|---|---|
| Store.GetById | internal/repository/subscription.go:16-34 | A row is returned exactly when the id is non-NULL and present, and it is that id's row. Otherwise the result is the no-rows error. |
| Store.Create | internal/repository/subscription.go:37-50 | The insert succeeds exactly when the id is non-NULL and not yet present, and the row stored under it is the record given, all six fields. Every existing row is kept. A refused insert leaves the table unchanged. The primary-key invariant is preserved. |
| Store.Update | internal/repository/subscription.go:52-71 | The update succeeds exactly when the id selects a row. Only service name, price, start date and finish date of that row change, and they take the request's values. Id and user id keep their stored values whatever the request carries. Every other row is unchanged. Zero affected rows gives not-found with the table unchanged. |
| Store.Delete | internal/repository/subscription.go:73-82 | The delete succeeds exactly when the id selects a row, and it removes that key and no other. Every remaining row is unchanged. An absent id gives not-found with the table unchanged. |
| Store.List | internal/repository/subscription.go:84-112 | The result has as many records as the table has rows. Every row appears and every record is a row. With unique ids no row appears twice. No order is promised, and an empty table gives an empty list. |
| Store.ParseFilter | internal/repository/subscription.go:120-125 | A filter string constrains only when non-empty. The query fails with a cast error exactly when a non-empty user, from or to string does not cast. Each non-empty user, from or to filter carries the value its cast gives. The service string needs no cast and is carried verbatim. |
| Store.Matches | internal/repository/subscription.go:122-125 | The empty filter admits every row. A row is excluded when a user filter is set and its user id is NULL or different. It is excluded when a service filter is set and its name does not contain that text, ignoring case (the corrected test; see Findings). It is excluded when a `from` filter is set and its start date is NULL or earlier. It is excluded when a `to` filter is set and its finish date is later. A row with no finish date always passes the `to` conjunct. |
| Store.Total | internal/repository/subscription.go:120 | `COALESCE(SUM(price), 0)`: when no row passes the filter the sum is 0. Otherwise any one row can be split off with its own contribution, so every row counts once whatever the scan order. |
| Store.SumRemove | internal/repository/subscription.go:120 | The sum is independent of scan order: any one row can be split off with its own contribution. |
| Store.TotalCost | internal/repository/subscription.go:115-140 | The query fails exactly when a filter does not cast. When the filters cast, the result is the sum over the rows that pass the cast filter. All-empty filters give the unfiltered sum. An empty table gives 0, not an error. |
| StoreLemmas.CreateThenGet | internal/repository/subscription.go:16-50 | After a successful Create, GetById on that id returns the record exactly as given. |
| StoreLemmas.DeleteThenGet | internal/repository/subscription.go:73-82 | After a successful Delete, GetById on that id fails with no rows. Every other id reads as before. |
| StoreLemmas.UpdateThenGet | internal/repository/subscription.go:52-71 | After a successful Update, GetById returns the old row rewritten in the four SET columns. Its id is the requested id. |
| StoreLemmas.TotalAfterCreate | internal/repository/subscription.go:37-50 | A successful Create raises every filtered total by the new row's contribution. |
| StoreLemmas.TotalAfterDelete | internal/repository/subscription.go:73-82 | A successful Delete lowers every filtered total by the removed row's contribution. |
| StoreLemmas.TotalAfterUpdate | internal/repository/subscription.go:52-71 | A successful Update replaces the old row's contribution with the rewritten row's. |
| StoreLemmas.NoMatchTotalIsZero | internal/repository/subscription.go:115-140 | When no row passes the filter, the total is 0 and not an error. |
| StoreLemmas.UnfilteredTotalIsListSum | internal/repository/subscription.go:84-140 | With all four filters empty, the total is the sum of the prices of the rows List returns. |
| Matching.Ilike | internal/repository/subscription.go:123 | PostgreSQL's ILIKE: a pattern without metacharacters matches exactly the strings equal to it up to ASCII case, and a pattern of `%` alone matches every string. |
| Matching.ServiceFilterAsWritten | internal/repository/subscription.go:123 | The service conjunct as the query performs it. On filter text without `%`, `_` or `\` it is the case-insensitive substring test, and the empty text selects every name. |
| Matching.ContainsFold | internal/repository/subscription.go:123 | The intended service test holds exactly when the filter text occurs at some offset of the name, ignoring ASCII case. |
| Matching.LiteralFilterAgrees | internal/repository/subscription.go:123 | For filter text with no `%`, `_` or `\`, the query's ILIKE pattern selects exactly the names the substring test selects. |
| Matching.WildcardFilterDiffers | internal/repository/subscription.go:123 | The filter text "_" selects "Netflix" through ILIKE, although "Netflix" does not contain "_". |
| Dto.JsonMembers | internal/dto/subscription.go:97-104 | The JSON always has service_name, price, user_id and start_date. It has `id` exactly when the id text is non-empty, and `finish_date` exactly when the finish text is non-empty. |
| Dto.SubscriptionToDTO | internal/dto/subscription.go:11-34 | Name and price are copied. A NULL id, user id or date becomes the empty string. Under lawful libraries a present one becomes non-empty text that parses back to the same bytes or day. |
| Dto.DTOToSubscription | internal/dto/subscription.go:36-77 | Conversion succeeds exactly when the id is blank or parses, the user id parses, the start date parses, and the finish date is blank or parses. Each error is reported exactly when every field checked before it passes and its own field fails, in the order id, user id, start date, finish date. On success id, user id and start date are present, and a blank id takes the generated UUID. The finish date is present exactly when its text is non-empty, and an absent one is NULL. Price sign and date order are not checked. |
| Dto.SubscriptionsToDTO | internal/dto/subscription.go:79-84 | The output has the same length and order as the input, with element i the DTO of record i. An empty input gives an empty output. |
| Dto.StringToUUID | internal/dto/subscription.go:86-95 | The empty string is NULL, with no error. A non-empty string succeeds exactly when it parses, giving a present UUID with the parsed bytes. |
| DtoLemmas.RoundTrip | internal/dto/subscription.go:11-77 | Decoding the DTO of a record with present id, user id and start date (and round-tripping dates) gives back every field of the record. |
| DtoLemmas.ReverseRoundTrip | internal/dto/subscription.go:11-77 | Encoding the decoded record of a canonical DTO gives back the DTO. A blank id comes back as the generated UUID's text. |
| DtoLemmas.PathIdRoundTrip | internal/dto/subscription.go:86-95 | Under lawful libraries, the id text of a record's DTO, read back through StringToUUID, gives the record's id: its bytes when present, NULL when it was NULL. |
| DtoLemmas.OmittedMembers | internal/dto/subscription.go:29-31 | A NULL id or finish date leaves its JSON member out. Under lawful libraries a present one is written. |
| Handlers.ListSubscriptions | internal/handlers/handler.go:27-36 | The answer is 500 exactly when the store fails. Otherwise it is 200 with one DTO per row. Every row's DTO is present, and every DTO is some row's. |
| Handlers.ListedRows | internal/handlers/handler.go:27-36 | The DTOs of a listing, converted element by element, are exactly the DTOs of the table's rows, in both directions. |
| Handlers.CreateSubscription | internal/handlers/handler.go:50-71 | An undecodable body gives 400 "invalid JSON", and a failed conversion gives 400 with its error. These are the only 400 answers, and in both the store is not called. A store failure gives 500 carrying the store's error: the driver's error when the connection fails, otherwise the key constraint. Success is 201 with the converted record's DTO, and exactly that record is inserted. |
| Handlers.GetSubscription | internal/handlers/handler.go:84-99 | The answer is 400 "invalid id format" exactly for a non-empty unparsable id, and then the store is not called. Any store error gives 404 "not found". 200 carries the row's DTO. An empty id gives 404. |
| Handlers.UpdateSubscription | internal/handlers/handler.go:114-141 | The answer is 400 exactly for an unparsable non-empty id, an undecodable body or a failed conversion, and then the store is not called. The store receives the converted record with the path id in place of the body's id. A failed conversion gives 400 with the converter's error. Any store error, not-found included, gives 500 with the table unchanged, carrying the driver's error when the connection fails and not-found otherwise. 200 carries the DTO of the record sent. |
| Handlers.DeleteSubscription | internal/handlers/handler.go:152-166 | The answer is 400 exactly for a non-empty unparsable id. Any store error, not-found included, gives 500 carrying that error: the driver's error when the connection fails, not-found otherwise. 204 with no body exactly when the row existed, which is then removed. |
| Handlers.TotalCost | internal/handlers/handler.go:181-194 | The four query strings reach the store verbatim. The answer is 500 exactly when the query fails, carrying the driver's error when the connection fails and the cast error otherwise. Otherwise it is 200 with the filtered sum. |
| Scenarios.CreateThenGet | internal/handlers/handler.go:50-99 | After a 201 create, getting the id the response reports answers 200 with the same JSON. |
| Scenarios.DeleteThenGet | internal/handlers/handler.go:152-166 | After a 204 delete, get on the same path id answers 404. |
| Scenarios.UpdateUnknownIdIs500 | internal/handlers/handler.go:135-138 | Updating an absent id answers 500 carrying the store's not-found error, with the table unchanged. |
| Scenarios.UpdateKeepsUserButEchoesBody | internal/handlers/handler.go:133-140 | After a 200 update, the stored row keeps its user id and id while the response echoes the body's fields under the path id. |
| Scenarios.EmptyPathIdReachesStore | internal/handlers/handler.go:85-92 | The empty path id reaches the store as NULL. Get answers 404, and update and delete answer 500. |
| Scenarios.OpenEndedCountsAfterCreate | internal/repository/subscription.go:125 | A record created without a finish date has no `finish_date` member in the response. It raises every later `to`-bounded total by its price, whatever the bound. |

## Left out

- The PostgreSQL connection pool, `context`, SQL text execution and driver error values. The
  store is a map. Driver failures are a single opaque `Driver(message)` error chosen by
  the caller through `Db.fault`.
- The internals of `uuid.Parse`, `uuid.UUID.String`, `uuid.New`, `time.Parse` and
  `Time.Format`, and of PostgreSQL's `::uuid` and `::date` casts. These are function
  parameters.
- Time of day and time zones: dates are whole days.
- Unicode case folding in ILIKE: only ASCII letters are folded.
- Store.TotalCost: the `uint32` the sum is scanned into is not modelled. The total is an
  unbounded integer, so a negative or over-large sum, which the scan would refuse, is
  reported as it is.
- Store.ParseFilter: a filter that does not cast is an error even when no row is
  examined. Whether PostgreSQL evaluates the cast before any row is read depends on its
  plan.
- Store.TotalCost: the code never calls `rows.Err()`. An error PostgreSQL raises while
  the result streams ends `rows.Next()` with false, and the method then returns 0 with no
  error; the handler answers 200 with total 0. A failed `::uuid` or `::date` cast raised
  when the query is sent is returned by `Query` instead, giving 500. Which of the two
  happens depends on PostgreSQL's plan. The model reports every failed cast as an error
  answered with 500. That is the behaviour the code evidently intends, not the one it
  shows when the error arrives with the rows.
- Store.List: for the same reason, an error raised while the rows stream ends the loop
  early, and the code returns the rows read so far with no error. The model's List
  returns every row. A failing query is only the connection fault `Db.fault`, answered
  with 500.
- Store.Matches: the service conjunct is the corrected substring test, not the query's
  ILIKE. On filter text holding `%`, `_` or `\` the model's totals are the ones the filter
  is meant to give, not the ones the query returns; see Findings.
- Store.Create: the price is an unbounded integer. A price outside the 32-bit range of the
  table's INTEGER column, which PostgreSQL would refuse, is stored as given.
- Store.Update: the same holds for the price an update writes.
- Store.Create: that a NULL or duplicate id is refused comes from the table's primary key.
  The key is not declared in this code; a map cannot hold two rows with one id.
- JSON encoding and decoding, `net/http` request and response objects, path prefix
  trimming and the plain-text framing `http.Error` adds. A body that does not decode is
  `None`.
- HTTP routing and Swagger (`internal/server/server.go`), configuration loading
  (`internal/config/config.go`) and process start-up (`cmd/main.go`). These are not part
  of this model.
- Logging.

## Findings

| source | as written | input that shows it | evidently intended | confidence | as-written member | corrected member |
|---|---|---|---|---|---|---|
| internal/repository/subscription.go:123 | The service filter text is spliced into `ILIKE '%' \|\| $2 \|\| '%'`, so `%`, `_` and `\` in it act as pattern metacharacters. | `service_name=_` counts a "Netflix" row, although the name does not contain "_". | A case-insensitive substring test of the filter text. | medium; not executed | Matching.ServiceFilterAsWritten | Matching.ContainsFold |

`Matching.ServiceFilterAsWritten` is the query's test as written, and `Matching.WildcardFilterDiffers` exhibits the input above against it. The contract of `Matching.ServiceFilterAsWritten`, proved through `Matching.LiteralFilterAgrees`, states that it agrees with the substring test whenever the filter text holds no metacharacter. `Store.Matches` uses the corrected test.

=== FILE: dto.dfy ===
/**
 The data-transfer form of a subscription and the conversions between it and the stored
 record (internal/dto/subscription.go).

 The conversions call into libraries that are not part of this model: UUID parsing and
 printing, date parsing and printing with the layout `2006-01-02`, and fresh-UUID
 generation. The first four are the fields of `Lib`; the fresh UUID is a parameter.
 What the model needs of them is stated as `Lawful` and `DateRoundTrips`.
 */
module Dto {
  import opened Wrappers
  import opened Records

  /** The library calls the conversions make. */
  datatype Lib = Lib(
    parseUuid: string -> Option<Uuid>,   // uuid.Parse
    formatUuid: Uuid -> string,          // uuid.UUID.String
    parseDate: string -> Option<Day>,    // time.Parse with layout "2006-01-02"
    formatDate: Day -> string)           // Time.Format with layout "2006-01-02"

  /**
   What the libraries guarantee: the empty string parses as neither a UUID nor a date,
   and the printed form of every UUID parses back to it.
   */
  ghost predicate Lawful(lib: Lib) {
    && lib.parseUuid("") == None
    && lib.parseDate("") == None
    && forall b: Uuid :: lib.parseUuid(lib.formatUuid(b)) == Some(b)
  }

  /**
   The printed form of day `d` parses back to `d`. The layout prints the year with at
   least four digits but parses exactly four, so this holds for years 0 to 9999 only.
   */
  predicate DateRoundTrips(lib: Lib, d: Day) {
    lib.parseDate(lib.formatDate(d)) == Some(d)
  }

  /** The JSON shape of a subscription; every field is a string except the price. */
  datatype SubscriptionDTO = SubscriptionDTO(
    id: string,
    serviceName: string,
    price: int,
    userId: string,
    startDate: string,
    finishDate: string)

  /** Which field failed to parse. */
  datatype DtoError = BadId | BadUserId | BadStartDate | BadFinishDate

  /**
   The members the JSON encoder writes for `d`, in field order: the `omitempty` tags drop
   an empty id and an empty finish date.
   */
  function JsonMembers(d: SubscriptionDTO): (members: seq<string>)
    ensures "service_name" in members && "price" in members
    ensures "user_id" in members && "start_date" in members
    ensures "id" in members <==> d.id != ""
    ensures "finish_date" in members <==> d.finishDate != ""
  {
    (if d.id != "" then ["id"] else [])
    + ["service_name", "price", "user_id", "start_date"]
    + (if d.finishDate != "" then ["finish_date"] else [])
  }

  /**
   The wire form of a record. The name and price are copied; an id, user id or date
   that is NULL becomes the empty string, and a valid one becomes text that parses back
   to the same value.
   */
  function SubscriptionToDTO(lib: Lib, s: Subscription): (d: SubscriptionDTO)
    ensures d.serviceName == s.serviceName && d.price == s.price
    ensures !s.id.valid ==> d.id == ""
    ensures !s.userId.valid ==> d.userId == ""
    ensures !s.startDate.valid ==> d.startDate == ""
    ensures !s.finishDate.valid ==> d.finishDate == ""
    ensures Lawful(lib) && s.id.valid ==> d.id != "" && lib.parseUuid(d.id) == Some(s.id.bytes)
    ensures Lawful(lib) && s.userId.valid ==>
      d.userId != "" && lib.parseUuid(d.userId) == Some(s.userId.bytes)
    ensures s.startDate.valid && DateRoundTrips(lib, s.startDate.day) ==>
      lib.parseDate(d.startDate) == Some(s.startDate.day)
    ensures Lawful(lib) && s.finishDate.valid && DateRoundTrips(lib, s.finishDate.day) ==>
      d.finishDate != "" && lib.parseDate(d.finishDate) == Some(s.finishDate.day)
  {
    SubscriptionDTO(
      if s.id.valid then lib.formatUuid(s.id.bytes) else "",
      s.serviceName,
      s.price,
      if s.userId.valid then lib.formatUuid(s.userId.bytes) else "",
      if s.startDate.valid then lib.formatDate(s.startDate.day) else "",
      if s.finishDate.valid then lib.formatDate(s.finishDate.day) else "")
  }

  /**
   The record a DTO stands for. Fields are checked in the order id, user id, start date,
   finish date, and the first that fails to parse is the error. A blank id is replaced
   by the freshly generated UUID `generated`; a blank finish date means open-ended. Nothing checks
   the sign of the price or the order of the two dates.
   */
  function DTOToSubscription(lib: Lib, d: SubscriptionDTO, generated: Uuid)
    : (r: Result<Subscription, DtoError>)
    ensures r.Success? <==>
      && (d.id == "" || lib.parseUuid(d.id).Some?)
      && lib.parseUuid(d.userId).Some?
      && lib.parseDate(d.startDate).Some?
      && (d.finishDate == "" || lib.parseDate(d.finishDate).Some?)
    ensures r == Failure(BadId) <==> d.id != "" && lib.parseUuid(d.id).None?
    ensures r == Failure(BadUserId) <==>
      && (d.id == "" || lib.parseUuid(d.id).Some?)
      && lib.parseUuid(d.userId).None?
    ensures r == Failure(BadStartDate) <==>
      && (d.id == "" || lib.parseUuid(d.id).Some?)
      && lib.parseUuid(d.userId).Some?
      && lib.parseDate(d.startDate).None?
    ensures r == Failure(BadFinishDate) <==>
      && (d.id == "" || lib.parseUuid(d.id).Some?)
      && lib.parseUuid(d.userId).Some?
      && lib.parseDate(d.startDate).Some?
      && d.finishDate != "" && lib.parseDate(d.finishDate).None?
    ensures r.Success? ==>
      var s := r.value;
      && s.id.valid && s.userId.valid && s.startDate.valid
      && (d.id == "" ==> s.id.bytes == generated)
      && (d.id != "" ==> lib.parseUuid(d.id) == Some(s.id.bytes))
      && lib.parseUuid(d.userId) == Some(s.userId.bytes)
      && lib.parseDate(d.startDate) == Some(s.startDate.day)
      && (s.finishDate.valid <==> d.finishDate != "")
      && (s.finishDate.valid ==> lib.parseDate(d.finishDate) == Some(s.finishDate.day))
      && (!s.finishDate.valid ==> s.finishDate == NullDate)
      && s.serviceName == d.serviceName && s.price == d.price
  {
    if d.id != "" && lib.parseUuid(d.id).None? then Failure(BadId)
    else if lib.parseUuid(d.userId).None? then Failure(BadUserId)
    else if lib.parseDate(d.startDate).None? then Failure(BadStartDate)
    else if d.finishDate != "" && lib.parseDate(d.finishDate).None? then Failure(BadFinishDate)
    else
      var id := if d.id != "" then lib.parseUuid(d.id).value else generated;
      var finish := if d.finishDate != "" then PgDate(lib.parseDate(d.finishDate).value, true) else NullDate;
      Success(Subscription(
        PgUuid(id, true),
        d.serviceName,
        d.price,
        PgUuid(lib.parseUuid(d.userId).value, true),
        PgDate(lib.parseDate(d.startDate).value, true),
        finish))
  }

  /**
   The wire forms of a list of records: same length, same order, element by element.
   An empty list gives an empty (not absent) array.
   */
  function SubscriptionsToDTO(lib: Lib, list: seq<Subscription>): (r: seq<SubscriptionDTO>)
    ensures |r| == |list|
    ensures forall i :: 0 <= i < |list| ==> r[i] == SubscriptionToDTO(lib, list[i])
  {
    if |list| == 0 then []
    else [SubscriptionToDTO(lib, list[0])] + SubscriptionsToDTO(lib, list[1..])
  }

  /**
   A path or query id as a nullable UUID. The empty string is NULL and not an error; any
   other string must parse.
   */
  function StringToUUID(lib: Lib, s: string): (r: Result<PgUuid, DtoError>)
    ensures s == "" ==> r == Success(NullUuid)
    ensures s != "" ==> (r.Success? <==> lib.parseUuid(s).Some?)
    ensures r.Success? ==> (r.value.valid <==> s != "")
    ensures r.Success? && s != "" ==> lib.parseUuid(s) == Some(r.value.bytes)
    ensures r.Failure? ==> r.error == BadId
  {
    if s == "" then Success(NullUuid)
    else match lib.parseUuid(s)
      case None => Failure(BadId)
      case Some(u) => Success(PgUuid(u, true))
  }
}

=== FILE: dto_lemmas.dfy ===
/** Round trips between the stored record and its wire form (internal/dto/subscription.go). */
module DtoLemmas {
  import opened Wrappers
  import opened Records
  import opened Dto

  /**
   A record the decode path can have produced: id, user id and start date present, a
   NULL finish date in the form the decoder writes it, and dates the layout round-trips.
   */
  ghost predicate Decodable(lib: Lib, s: Subscription) {
    && s.id.valid && s.userId.valid && s.startDate.valid
    && DateRoundTrips(lib, s.startDate.day)
    && (s.finishDate.valid ==> DateRoundTrips(lib, s.finishDate.day))
    && (!s.finishDate.valid ==> s.finishDate == NullDate)
  }

  /**
   Encoding a decodable record and decoding the result gives the record back, every
   field of it; the generated id is not used because the encoded id is never blank.
   */
  lemma RoundTrip(lib: Lib, s: Subscription, generated: Uuid)
    requires Lawful(lib)
    requires Decodable(lib, s)
    ensures DTOToSubscription(lib, SubscriptionToDTO(lib, s), generated) == Success(s)
  {
  }

  /** Every text field of `d` is the printed form of what it parses to (or is blank where allowed). */
  ghost predicate Canonical(lib: Lib, d: SubscriptionDTO) {
    && (d.id != "" ==> lib.parseUuid(d.id).Some? && lib.formatUuid(lib.parseUuid(d.id).value) == d.id)
    && (lib.parseUuid(d.userId).Some? ==> lib.formatUuid(lib.parseUuid(d.userId).value) == d.userId)
    && (lib.parseDate(d.startDate).Some? ==> lib.formatDate(lib.parseDate(d.startDate).value) == d.startDate)
    && (d.finishDate != "" && lib.parseDate(d.finishDate).Some? ==>
          lib.formatDate(lib.parseDate(d.finishDate).value) == d.finishDate)
  }

  /**
   Decoding a canonical DTO and encoding the record gives the DTO back, except that a
   blank id comes back as the printed form of the generated one.
   */
  lemma ReverseRoundTrip(lib: Lib, d: SubscriptionDTO, generated: Uuid)
    requires Canonical(lib, d)
    requires DTOToSubscription(lib, d, generated).Success?
    ensures SubscriptionToDTO(lib, DTOToSubscription(lib, d, generated).value)
            == d.(id := if d.id == "" then lib.formatUuid(generated) else d.id)
  {
  }

  /**
   A NULL id or finish date leaves its member out of the JSON; under lawful libraries a
   present one is always written.
   */
  lemma OmittedMembers(lib: Lib, s: Subscription)
    ensures "id" in JsonMembers(SubscriptionToDTO(lib, s)) ==> s.id.valid
    ensures "finish_date" in JsonMembers(SubscriptionToDTO(lib, s)) ==> s.finishDate.valid
    ensures Lawful(lib) && s.id.valid ==> "id" in JsonMembers(SubscriptionToDTO(lib, s))
    ensures Lawful(lib) && s.finishDate.valid && DateRoundTrips(lib, s.finishDate.day) ==>
      "finish_date" in JsonMembers(SubscriptionToDTO(lib, s))
  {
  }

  /**
   The id text a response carries, sent back as a path id, names the same nullable UUID:
   a present id parses to its bytes and the empty text is NULL again.
   */
  lemma PathIdRoundTrip(lib: Lib, s: Subscription)
    requires Lawful(lib)
    requires s.id.valid || s.id == NullUuid
    ensures StringToUUID(lib, SubscriptionToDTO(lib, s).id) == Success(s.id)
  {
  }
}

=== FILE: handlers.dfy ===
/**
 The decision logic of the six HTTP handlers (internal/handlers/handler.go): from the
 request's path id, decoded body and query strings, and from what the repository
 answers, to the status code and body of the response. The HTTP objects and the JSON
 codec are not modelled: a body that fails to decode is `None`, and the response body
 is the value the encoder would be given.

 Each handler reports the repository call it made (`call`, `None` when it answered
 before reaching the store) and the table afterwards.
 */
module Handlers {
  import opened Wrappers
  import opened Records
  import opened Dto
  import Store

  const StatusOK := 200
  const StatusCreated := 201
  const StatusNoContent := 204
  const StatusBadRequest := 400
  const StatusNotFound := 404
  const StatusInternalServerError := 500

  /**
   The database as a request finds it: the table, the casts the TotalCost query applies,
   and, when the connection fails, the driver's error message.
   */
  datatype Db = Db(table: Store.Table, casts: Store.Casts, fault: Option<string>)

  /** An error value whose text a handler writes back. */
  datatype Error = StoreFailed(storeError: StoreError) | Invalid(dtoError: DtoError)

  /** What the response carries. */
  datatype Body =
    | NoBody
    | Json(dto: SubscriptionDTO)
    | JsonArray(dtos: seq<SubscriptionDTO>)
    | TotalJson(total: int)         // {"total": total}
    | Message(text: string)         // a fixed plain-text error
    | ErrorText(error: Error)       // the text of an error value

  /** A response, the repository call made on the way, and the table left behind. */
  datatype Handled = Handled(status: int, body: Body, call: Option<Store.Call>, table: Store.Table)

  // The repository interface, reached through a connection that may fail.

  function RepoGetById(db: Db, id: PgUuid): Result<Subscription, StoreError> {
    if db.fault.Some? then Failure(Driver(db.fault.value)) else Store.GetById(db.table, id)
  }

  function RepoCreate(db: Db, sub: Subscription): Store.Write {
    if db.fault.Some? then Store.Write(Store.Failed(Driver(db.fault.value)), db.table)
    else Store.Create(db.table, sub)
  }

  function RepoUpdate(db: Db, sub: Subscription): Store.Write {
    if db.fault.Some? then Store.Write(Store.Failed(Driver(db.fault.value)), db.table)
    else Store.Update(db.table, sub)
  }

  function RepoDelete(db: Db, id: PgUuid): Store.Write {
    if db.fault.Some? then Store.Write(Store.Failed(Driver(db.fault.value)), db.table)
    else Store.Delete(db.table, id)
  }

  ghost function RepoList(db: Db): Result<seq<Subscription>, StoreError> {
    if db.fault.Some? then Failure(Driver(db.fault.value)) else Success(Store.List(db.table))
  }

  ghost function RepoTotalCost(db: Db, userId: string, service: string, from: string, to: string)
    : Result<int, StoreError>
  {
    if db.fault.Some? then Failure(Driver(db.fault.value))
    else Store.TotalCost(db.table, db.casts, userId, service, from, to)
  }

  /** The path id as the handlers read it; it is rejected only when non-empty and unparsable. */
  predicate BadPathId(lib: Lib, idStr: string) {
    idStr != "" && lib.parseUuid(idStr).None?
  }

  /** GET /subscriptions/list: every row as an array, or 500 when the query fails. */
  ghost function ListSubscriptions(lib: Lib, db: Db): (h: Handled)
    ensures h.call == Some(Store.ListCall) && h.table == db.table
    ensures h.status == StatusOK || h.status == StatusInternalServerError
    ensures h.status == StatusInternalServerError <==> db.fault.Some?
    ensures h.status == StatusInternalServerError ==> h.body == ErrorText(StoreFailed(Driver(db.fault.value)))
    ensures h.status == StatusOK ==>
      && h.body.JsonArray?
      && |h.body.dtos| == |db.table|
      && (forall k :: k in db.table ==> SubscriptionToDTO(lib, db.table[k]) in h.body.dtos)
      && (forall i :: 0 <= i < |h.body.dtos| ==>
            exists k :: k in db.table && h.body.dtos[i] == SubscriptionToDTO(lib, db.table[k]))
  {
    match RepoList(db)
    case Failure(e) =>
      Handled(StatusInternalServerError, ErrorText(StoreFailed(e)), Some(Store.ListCall), db.table)
    case Success(rows) =>
      var dtos := SubscriptionsToDTO(lib, rows);
      ListedRows(lib, db.table, rows, dtos);
      Handled(StatusOK, JsonArray(dtos), Some(Store.ListCall), db.table)
  }

  /** `d` is the wire form of some row of `t`. */
  ghost predicate ListedFrom(lib: Lib, t: Store.Table, d: SubscriptionDTO) {
    exists k :: k in t && d == SubscriptionToDTO(lib, t[k])
  }

  /**
   The wire forms of a listing, each row converted in place, are exactly the wire forms
   of the table's rows.
   */
  lemma ListedRows(lib: Lib, t: Store.Table, rows: seq<Subscription>, dtos: seq<SubscriptionDTO>)
    requires forall k :: k in t ==> t[k] in rows
    requires forall i :: 0 <= i < |rows| ==> rows[i] in t.Values
    requires |dtos| == |rows| && forall i :: 0 <= i < |rows| ==> dtos[i] == SubscriptionToDTO(lib, rows[i])
    ensures forall k :: k in t ==> SubscriptionToDTO(lib, t[k]) in dtos
    ensures forall i :: 0 <= i < |dtos| ==> ListedFrom(lib, t, dtos[i])
  {
    forall k | k in t
      ensures SubscriptionToDTO(lib, t[k]) in dtos
    {
      var i :| 0 <= i < |rows| && rows[i] == t[k];
      assert dtos[i] == SubscriptionToDTO(lib, t[k]);
    }
    forall i | 0 <= i < |dtos|
      ensures ListedFrom(lib, t, dtos[i])
    {
      assert rows[i] in t.Values;
      var k :| k in t && t[k] == rows[i];
      assert k in t && dtos[i] == SubscriptionToDTO(lib, t[k]);
    }
  }

  /**
   POST /subscriptions/create: 400 when the body does not decode or convert, 500 when
   the insert fails, otherwise 201 with the record as stored.
   */
  function CreateSubscription(lib: Lib, db: Db, body: Option<SubscriptionDTO>, generated: Uuid)
    : (h: Handled)
    ensures h.status == StatusCreated || h.status == StatusBadRequest || h.status == StatusInternalServerError
    ensures body.None? ==> h == Handled(StatusBadRequest, Message("invalid JSON"), None, db.table)
    ensures body.Some? && DTOToSubscription(lib, body.value, generated).Failure? ==>
      h == Handled(StatusBadRequest, ErrorText(Invalid(DTOToSubscription(lib, body.value, generated).error)),
                   None, db.table)
    ensures h.status == StatusBadRequest <==> body.None? || DTOToSubscription(lib, body.value, generated).Failure?
    ensures h.status == StatusBadRequest ==> h.call.None? && h.table == db.table
    ensures h.status != StatusBadRequest ==>
      body.Some? && DTOToSubscription(lib, body.value, generated).Success?
      && h.call == Some(Store.CreateCall(DTOToSubscription(lib, body.value, generated).value))
    ensures h.status == StatusCreated <==>
      && body.Some? && DTOToSubscription(lib, body.value, generated).Success?
      && db.fault.None?
      && DTOToSubscription(lib, body.value, generated).value.id.bytes !in db.table
    ensures h.status == StatusCreated ==>
      var sub := DTOToSubscription(lib, body.value, generated).value;
      && h.body == Json(SubscriptionToDTO(lib, sub))
      && h.table == db.table[sub.id.bytes := sub]
    ensures h.status == StatusInternalServerError ==> h.table == db.table
    ensures h.status == StatusInternalServerError ==>
      h.body == ErrorText(StoreFailed(if db.fault.Some? then Driver(db.fault.value) else Constraint))
  {
    if body.None? then
      Handled(StatusBadRequest, Message("invalid JSON"), None, db.table)
    else match DTOToSubscription(lib, body.value, generated)
      case Failure(e) => Handled(StatusBadRequest, ErrorText(Invalid(e)), None, db.table)
      case Success(sub) =>
        var w := RepoCreate(db, sub);
        if w.outcome.Failed? then
          Handled(StatusInternalServerError, ErrorText(StoreFailed(w.outcome.error)),
                  Some(Store.CreateCall(sub)), w.table)
        else
          Handled(StatusCreated, Json(SubscriptionToDTO(lib, sub)), Some(Store.CreateCall(sub)), w.table)
  }

  /**
   GET /subscriptions/get/{id}: 400 for an id that does not parse, 404 for any store
   error, otherwise 200 with the row. An empty id is not rejected: it is NULL, which
   selects no row, so the answer is 404.
   */
  function GetSubscription(lib: Lib, db: Db, idStr: string): (h: Handled)
    ensures h.status == StatusOK || h.status == StatusBadRequest || h.status == StatusNotFound
    ensures h.table == db.table
    ensures h.status == StatusBadRequest <==> BadPathId(lib, idStr)
    ensures h.status == StatusBadRequest ==> h.body == Message("invalid id format") && h.call.None?
    ensures h.status != StatusBadRequest ==> h.call == Some(Store.GetByIdCall(StringToUUID(lib, idStr).value))
    ensures h.status == StatusNotFound ==> h.body == Message("not found")
    ensures h.status == StatusOK <==>
      db.fault.None? && idStr != "" && lib.parseUuid(idStr).Some? && lib.parseUuid(idStr).value in db.table
    ensures h.status == StatusOK ==> h.body == Json(SubscriptionToDTO(lib, db.table[lib.parseUuid(idStr).value]))
    ensures idStr == "" ==> h.status == StatusNotFound
  {
    match StringToUUID(lib, idStr)
    case Failure(_) => Handled(StatusBadRequest, Message("invalid id format"), None, db.table)
    case Success(id) =>
      match RepoGetById(db, id)
      case Failure(_) => Handled(StatusNotFound, Message("not found"), Some(Store.GetByIdCall(id)), db.table)
      case Success(sub) => Handled(StatusOK, Json(SubscriptionToDTO(lib, sub)), Some(Store.GetByIdCall(id)), db.table)
  }

  /**
   PUT /subscriptions/update/{id}: 400 for an unparsable id, an undecodable body or one
   that does not convert; the converted record with the path id in place of its own is
   handed to the store; any store error, not-found included, is 500; otherwise 200 with
   that record.
   */
  function UpdateSubscription(lib: Lib, db: Db, idStr: string, body: Option<SubscriptionDTO>, generated: Uuid)
    : (h: Handled)
    ensures h.status == StatusOK || h.status == StatusBadRequest || h.status == StatusInternalServerError
    ensures BadPathId(lib, idStr) ==>
      h == Handled(StatusBadRequest, Message("invalid id format"), None, db.table)
    ensures !BadPathId(lib, idStr) && body.None? ==>
      h == Handled(StatusBadRequest, Message("invalid JSON"), None, db.table)
    ensures !BadPathId(lib, idStr) && body.Some? && DTOToSubscription(lib, body.value, generated).Failure? ==>
      h == Handled(StatusBadRequest, ErrorText(Invalid(DTOToSubscription(lib, body.value, generated).error)),
                   None, db.table)
    ensures h.status == StatusBadRequest <==>
      BadPathId(lib, idStr) || body.None? || DTOToSubscription(lib, body.value, generated).Failure?
    ensures h.status == StatusBadRequest ==> h.call.None? && h.table == db.table
    ensures h.status != StatusBadRequest ==>
      && !BadPathId(lib, idStr) && body.Some? && DTOToSubscription(lib, body.value, generated).Success?
      && h.call == Some(Store.UpdateCall(
           DTOToSubscription(lib, body.value, generated).value.(id := StringToUUID(lib, idStr).value)))
    ensures h.status == StatusOK <==>
      && !BadPathId(lib, idStr) && body.Some? && DTOToSubscription(lib, body.value, generated).Success?
      && db.fault.None? && idStr != "" && lib.parseUuid(idStr).value in db.table
    ensures h.status == StatusOK ==>
      var sub := DTOToSubscription(lib, body.value, generated).value.(id := StringToUUID(lib, idStr).value);
      && h.body == Json(SubscriptionToDTO(lib, sub))
      && h.table == Store.Update(db.table, sub).table
    ensures h.status == StatusInternalServerError ==> h.table == db.table
    ensures h.status == StatusInternalServerError ==>
      h.body == ErrorText(StoreFailed(if db.fault.Some? then Driver(db.fault.value) else NotFound))
  {
    match StringToUUID(lib, idStr)
    case Failure(_) => Handled(StatusBadRequest, Message("invalid id format"), None, db.table)
    case Success(id) =>
      if body.None? then Handled(StatusBadRequest, Message("invalid JSON"), None, db.table)
      else match DTOToSubscription(lib, body.value, generated)
        case Failure(e) => Handled(StatusBadRequest, ErrorText(Invalid(e)), None, db.table)
        case Success(converted) =>
          var sub := converted.(id := id);
          var w := RepoUpdate(db, sub);
          if w.outcome.Failed? then
            Handled(StatusInternalServerError, ErrorText(StoreFailed(w.outcome.error)),
                    Some(Store.UpdateCall(sub)), w.table)
          else
            Handled(StatusOK, Json(SubscriptionToDTO(lib, sub)), Some(Store.UpdateCall(sub)), w.table)
  }

  /**
   DELETE /subscriptions/delete/{id}: 400 for an unparsable id, 500 for any store error
   (not-found included), otherwise 204 with no body.
   */
  function DeleteSubscription(lib: Lib, db: Db, idStr: string): (h: Handled)
    ensures h.status == StatusNoContent || h.status == StatusBadRequest || h.status == StatusInternalServerError
    ensures h.status == StatusBadRequest <==> BadPathId(lib, idStr)
    ensures h.status == StatusBadRequest ==>
      h.body == Message("invalid id format") && h.call.None? && h.table == db.table
    ensures h.status != StatusBadRequest ==> h.call == Some(Store.DeleteCall(StringToUUID(lib, idStr).value))
    ensures h.status == StatusNoContent <==>
      db.fault.None? && idStr != "" && lib.parseUuid(idStr).Some? && lib.parseUuid(idStr).value in db.table
    ensures h.status == StatusNoContent ==>
      h.body == NoBody && h.table == db.table - {lib.parseUuid(idStr).value}
    ensures h.status == StatusInternalServerError ==> h.table == db.table
    ensures h.status == StatusInternalServerError ==>
      h.body == ErrorText(StoreFailed(if db.fault.Some? then Driver(db.fault.value) else NotFound))
  {
    match StringToUUID(lib, idStr)
    case Failure(_) => Handled(StatusBadRequest, Message("invalid id format"), None, db.table)
    case Success(id) =>
      var w := RepoDelete(db, id);
      if w.outcome.Failed? then
        Handled(StatusInternalServerError, ErrorText(StoreFailed(w.outcome.error)), Some(Store.DeleteCall(id)), w.table)
      else
        Handled(StatusNoContent, NoBody, Some(Store.DeleteCall(id)), w.table)
  }

  /**
   GET /subscriptions/total: the four query strings go to the store as they are; 500 when
   the query fails, otherwise 200 with the sum.
   */
  ghost function TotalCost(db: Db, userId: string, service: string, from: string, to: string): (h: Handled)
    ensures h.call == Some(Store.TotalCostCall(userId, service, from, to)) && h.table == db.table
    ensures h.status == StatusOK || h.status == StatusInternalServerError
    ensures h.status == StatusOK <==>
      db.fault.None? && Store.ParseFilter(db.casts, userId, service, from, to).Success?
    ensures h.status == StatusOK ==>
      h.body == TotalJson(Store.Total(db.table, Store.ParseFilter(db.casts, userId, service, from, to).value))
    ensures h.status == StatusInternalServerError ==>
      h.body == ErrorText(StoreFailed(if db.fault.Some? then Driver(db.fault.value) else InvalidCast))
  {
    var call := Store.TotalCostCall(userId, service, from, to);
    match RepoTotalCost(db, userId, service, from, to)
    case Failure(e) => Handled(StatusInternalServerError, ErrorText(StoreFailed(e)), Some(call), db.table)
    case Success(total) => Handled(StatusOK, TotalJson(total), Some(call), db.table)
  }
}

=== FILE: matching.dfy ===
/**
 Case-insensitive text matching used by the TotalCost service filter
 (internal/repository/subscription.go, the `service_name ILIKE '%' || $2 || '%'` conjunct).

 Two matchers live here: `Ilike`, PostgreSQL's pattern match that the query actually
 performs, and `ContainsFold`, the case-insensitive substring test the filter is meant
 to be. They agree whenever the filter text holds no pattern metacharacter
 (`LiteralFilterAgrees`) and differ otherwise (`WildcardFilterDiffers`).
 */
module Matching {

  /** ASCII lower-casing; every other character is left as it is. */
  function Lower(c: char): char {
    if 'A' <= c <= 'Z' then (c as int + 32) as char else c
  }

  /** `t` holds `p` at offset `i`, ignoring ASCII case. */
  ghost predicate OccursAt(t: string, p: string, i: int) {
    && 0 <= i <= |t| - |p|
    && forall j :: 0 <= j < |p| ==> Lower(t[i + j]) == Lower(p[j])
  }

  /** `p` is a prefix of `t`, ignoring ASCII case. */
  predicate PrefixFold(p: string, t: string)
    ensures PrefixFold(p, t) <==> OccursAt(t, p, 0)
  {
    |p| <= |t| && forall j :: 0 <= j < |p| ==> Lower(p[j]) == Lower(t[j])
  }

  /**
   Case-insensitive substring test: the intended meaning of the service filter.
   The result holds exactly when `p` occurs somewhere in `t`.
   */
  function ContainsFold(t: string, p: string): (r: bool)
    ensures r <==> exists i :: OccursAt(t, p, i)
    decreases |t|
  {
    ContainsStep(t, p);
    PrefixFold(p, t) || (|t| > 0 && ContainsFold(t[1..], p))
  }

  /** An occurrence is either at offset 0 or an occurrence in the tail, shifted by one. */
  lemma ContainsStep(t: string, p: string)
    ensures (exists i :: OccursAt(t, p, i))
            <==> PrefixFold(p, t) || (|t| > 0 && exists i :: OccursAt(t[1..], p, i))
  {
    if |t| > 0 {
      forall i | OccursAt(t[1..], p, i)
        ensures OccursAt(t, p, i + 1)
      {
        forall j | 0 <= j < |p|
          ensures Lower(t[i + 1 + j]) == Lower(p[j])
        {
          assert t[1..][i + j] == t[i + 1 + j];
        }
      }
      forall i | OccursAt(t, p, i) && i != 0
        ensures OccursAt(t[1..], p, i - 1)
      {
        forall j | 0 <= j < |p|
          ensures Lower(t[1..][i - 1 + j]) == Lower(p[j])
        {
          assert t[1..][i - 1 + j] == t[i + j];
        }
      }
    }
  }

  /**
   PostgreSQL's ILIKE: `%` matches any run of characters, `_` any single character,
   `\` makes the pattern character after it literal, and letters compare without case.
   A lone `\` at the very end is compared literally here; PostgreSQL rejects it, but the
   patterns TotalCost builds always end with `%`, so that case never arises from it.
   A pattern without metacharacters matches exactly the strings equal to it up to case,
   and a pattern of `%` alone matches everything.
   */
  function Ilike(t: string, p: string): (r: bool)
    ensures Literal(p) ==> (r <==> |t| == |p| && PrefixFold(p, t))
    ensures AllPercent(p) ==> r
    decreases |t| + |p|
  {
    if |p| == 0 then |t| == 0
    else if p[0] == '%' then
      TailFacts(p);
      Ilike(t, p[1..]) || (|t| > 0 && Ilike(t[1..], p))
    else if p[0] == '_' then |t| > 0 && Ilike(t[1..], p[1..])
    else if p[0] == '\\' && |p| >= 2 then
      |t| > 0 && Lower(t[0]) == Lower(p[1]) && Ilike(t[1..], p[2..])
    else
      TailFacts(p);
      if |t| > 0 then
        PrefixStep(p, t);
        Lower(t[0]) == Lower(p[0]) && Ilike(t[1..], p[1..])
      else false
  }

  /** The pattern is one or more `%` and nothing else. */
  predicate AllPercent(p: string) {
    |p| > 0 && forall i :: 0 <= i < |p| ==> p[i] == '%'
  }

  /** Dropping the first pattern character keeps both pattern shapes. */
  lemma TailFacts(p: string)
    requires |p| > 0
    ensures Literal(p) ==> Literal(p[1..])
    ensures AllPercent(p) && |p| > 1 ==> AllPercent(p[1..])
  {
    assert forall i :: 0 <= i < |p| - 1 ==> p[1..][i] == p[i + 1];
  }

  /** A case-insensitive prefix is a matching first character followed by a prefix of the rest. */
  lemma PrefixStep(p: string, t: string)
    requires |p| > 0 && |t| > 0
    ensures PrefixFold(p, t) <==> Lower(p[0]) == Lower(t[0]) && PrefixFold(p[1..], t[1..])
  {
    if Lower(p[0]) == Lower(t[0]) && PrefixFold(p[1..], t[1..]) {
      assert forall j :: 1 <= j < |p| ==> p[j] == p[1..][j - 1] && t[j] == t[1..][j - 1];
    }
    if PrefixFold(p, t) {
      assert forall j :: 0 <= j < |p| - 1 ==> p[1..][j] == p[j + 1] && t[1..][j] == t[j + 1];
    }
  }

  /** The pattern the query builds from a service filter: `'%' || service || '%'`. */
  function ServicePattern(service: string): string {
    "%" + service + "%"
  }

  /**
   The service conjunct as written: the filter text is spliced into an ILIKE pattern.
   On text without metacharacters it is the case-insensitive substring test, and the
   empty text selects every name.
   */
  predicate ServiceFilterAsWritten(name: string, service: string)
    ensures Literal(service) ==> (ServiceFilterAsWritten(name, service) <==> ContainsFold(name, service))
    ensures service == "" ==> ServiceFilterAsWritten(name, service)
  {
    assert Literal(service) ==> (Ilike(name, ServicePattern(service)) <==> ContainsFold(name, service)) by {
      if Literal(service) {
        LiteralFilterAgrees(name, service);
      }
    }
    assert service == "" ==> AllPercent(ServicePattern(service));
    Ilike(name, ServicePattern(service))
  }

  /** The filter text holds none of ILIKE's metacharacters. */
  predicate Literal(s: string) {
    forall i :: 0 <= i < |s| ==> s[i] != '%' && s[i] != '_' && s[i] != '\\'
  }

  /** A literal text followed by `%` matches exactly the strings it prefixes. */
  lemma {:induction false} LiteralPrefixPattern(t: string, p: string)
    requires Literal(p)
    ensures Ilike(t, p + "%") <==> PrefixFold(p, t)
    decreases |p|
  {
    if |p| == 0 {
      assert p + "%" == "%";
      assert AllPercent("%");
    } else {
      assert (p + "%")[0] == p[0];
      assert (p + "%")[1..] == p[1..] + "%";
      assert Literal(p[1..]) by {
        assert forall i :: 0 <= i < |p| - 1 ==> p[1..][i] == p[i + 1];
      }
      if |t| > 0 {
        LiteralPrefixPattern(t[1..], p[1..]);
        if PrefixFold(p, t) {
          assert forall j :: 0 <= j < |p| - 1 ==> p[1..][j] == p[j + 1] && t[1..][j] == t[j + 1];
        }
        if Lower(t[0]) == Lower(p[0]) && PrefixFold(p[1..], t[1..]) {
          assert forall j :: 1 <= j < |p| ==> p[j] == p[1..][j - 1] && t[j] == t[1..][j - 1];
        }
      }
    }
  }

  /**
   On filter text without metacharacters the query's ILIKE pattern is exactly the
   case-insensitive substring test.
   */
  lemma {:induction false} LiteralFilterAgrees(name: string, service: string)
    requires Literal(service)
    ensures Ilike(name, ServicePattern(service)) <==> ContainsFold(name, service)
    decreases |name|
  {
    var pat := ServicePattern(service);
    assert pat[0] == '%';
    assert pat[1..] == service + "%";
    LiteralPrefixPattern(name, service);
    if |name| > 0 {
      LiteralFilterAgrees(name[1..], service);
    }
  }

  /**
   With an underscore in the filter text the query counts a service whose name does
   not contain that text: "_" selects "Netflix".
   */
  lemma WildcardFilterDiffers()
    ensures ServiceFilterAsWritten("Netflix", "_")
    ensures !ContainsFold("Netflix", "_")
  {
    var pat := ServicePattern("_");
    assert pat == "%_%";
    assert pat[1..] == "_%";
    assert "_%"[1..] == "%";
    assert AllPercent("%");
    assert "Netflix"[1..] == "etflix";
    assert Ilike("Netflix", "_%");
  }
}

=== FILE: records.dfy ===
/**
 The stored record of the subscription service and the errors its store reports
 (internal/repository/types.go and internal/repository/subscription.go).
 */
module Records {

  /** The sixteen raw bytes of a UUID. */
  type Uuid = b: seq<bv8> | |b| == 16 witness seq(16, i => 0 as bv8)

  const ZeroUuid: Uuid := seq(16, i => 0 as bv8)

  /** A calendar day, counted from an arbitrary origin; later days are larger. */
  type Day = int

  /** The day the zero `time.Time` value falls on. */
  const ZeroDay: Day := 0

  /**
   A nullable UUID column value (`pgtype.UUID`). A value with `valid` false is SQL NULL;
   the constructors in this model give such a value the zero bytes.
   */
  datatype PgUuid = PgUuid(bytes: Uuid, valid: bool)

  /** A nullable date column value (`pgtype.Timestamptz`), at day granularity. */
  datatype PgDate = PgDate(day: Day, valid: bool)

  /** SQL NULL for a UUID column. */
  const NullUuid := PgUuid(ZeroUuid, false)

  /** SQL NULL for a date column: the zero time, not valid. */
  const NullDate := PgDate(ZeroDay, false)

  /** One row of the `subscription` table. */
  datatype Subscription = Subscription(
    id: PgUuid,
    serviceName: string,
    price: int,
    userId: PgUuid,
    startDate: PgDate,
    finishDate: PgDate)

  /** The errors the store can report. */
  datatype StoreError =
    | NoRows            // the driver's "no rows in result set", returned by GetById
    | NotFound          // "Subscription not found": an UPDATE or DELETE affected no row
    | Constraint        // the table refused an INSERT (duplicate or NULL primary key)
    | InvalidCast       // a non-empty TotalCost filter that PostgreSQL cannot cast
    | Driver(message: string)  // a failed connection or driver call
}

=== FILE: scenarios.dfy ===
/**
 Request sequences against one database, through the handlers of
 internal/handlers/handler.go and the store of internal/repository/subscription.go.
 */
module Scenarios {
  import opened Wrappers
  import opened Records
  import opened Dto
  import Store
  import StoreLemmas
  import opened Handlers

  /** The database after a request has left table `t` behind. */
  function After(db: Db, h: Handled): Db {
    db.(table := h.table)
  }

  /**
   A created subscription is then found under the id the create response reports, and
   the get response carries the same JSON as the create response did.
   */
  lemma CreateThenGet(lib: Lib, db: Db, body: Option<SubscriptionDTO>, generated: Uuid)
    requires Lawful(lib)
    requires CreateSubscription(lib, db, body, generated).status == StatusCreated
    ensures
      var created := CreateSubscription(lib, db, body, generated);
      var got := GetSubscription(lib, After(db, created), created.body.dto.id);
      got.status == StatusOK && got.body == created.body
  {
  }

  /** After a successful delete the same path id answers 404 on get. */
  lemma DeleteThenGet(lib: Lib, db: Db, idStr: string)
    requires DeleteSubscription(lib, db, idStr).status == StatusNoContent
    ensures GetSubscription(lib, After(db, DeleteSubscription(lib, db, idStr)), idStr).status == StatusNotFound
  {
  }

  /**
   Updating an id that is not in the table is not told apart from other store errors:
   the answer is 500 carrying the store's not-found error, and nothing changes.
   */
  lemma UpdateUnknownIdIs500(lib: Lib, db: Db, idStr: string, body: SubscriptionDTO, generated: Uuid)
    requires db.fault.None?
    requires idStr != "" && lib.parseUuid(idStr).Some? && lib.parseUuid(idStr).value !in db.table
    requires DTOToSubscription(lib, body, generated).Success?
    ensures UpdateSubscription(lib, db, idStr, Some(body), generated)
            == Handled(StatusInternalServerError, ErrorText(StoreFailed(NotFound)),
                       Some(Store.UpdateCall(DTOToSubscription(lib, body, generated).value
                                               .(id := PgUuid(lib.parseUuid(idStr).value, true)))),
                       db.table)
  {
  }

  /**
   A successful update keeps the stored user id and id, while the response echoes the
   user id of the request body: the two disagree whenever the body names another user.
   */
  lemma UpdateKeepsUserButEchoesBody(lib: Lib, db: Db, idStr: string, body: SubscriptionDTO, generated: Uuid)
    requires UpdateSubscription(lib, db, idStr, Some(body), generated).status == StatusOK
    ensures
      var h := UpdateSubscription(lib, db, idStr, Some(body), generated);
      var k := lib.parseUuid(idStr).value;
      var sent := DTOToSubscription(lib, body, generated).value;
      && k in h.table
      && h.table[k].userId == db.table[k].userId
      && h.table[k].id == db.table[k].id
      && h.table[k].serviceName == sent.serviceName && h.table[k].price == sent.price
      && h.body == Json(SubscriptionToDTO(lib, sent.(id := PgUuid(k, true))))
  {
  }

  /**
   An empty path id is not rejected: get answers 404, and update and delete reach the
   store and answer 500.
   */
  lemma EmptyPathIdReachesStore(lib: Lib, db: Db, body: SubscriptionDTO, generated: Uuid)
    requires DTOToSubscription(lib, body, generated).Success?
    ensures GetSubscription(lib, db, "").status == StatusNotFound
    ensures GetSubscription(lib, db, "").call == Some(Store.GetByIdCall(NullUuid))
    ensures UpdateSubscription(lib, db, "", Some(body), generated).status == StatusInternalServerError
    ensures DeleteSubscription(lib, db, "").status == StatusInternalServerError
    ensures DeleteSubscription(lib, db, "").call == Some(Store.DeleteCall(NullUuid))
  {
  }

  /**
   A subscription created without a finish date is answered without a `finish_date`
   member, and it counts towards every later total bounded only by `to`, whatever that
   bound is: the total grows by exactly its price.
   */
  lemma OpenEndedCountsAfterCreate(lib: Lib, db: Db, body: SubscriptionDTO, generated: Uuid, to: string)
    requires body.finishDate == ""
    requires CreateSubscription(lib, db, Some(body), generated).status == StatusCreated
    requires to == "" || db.casts.date(to).Some?
    ensures
      var created := CreateSubscription(lib, db, Some(body), generated);
      "finish_date" !in JsonMembers(created.body.dto)
    ensures
      var created := CreateSubscription(lib, db, Some(body), generated);
      var before := TotalCost(db, "", "", "", to);
      var after := TotalCost(After(db, created), "", "", "", to);
      before.status == StatusOK && after.status == StatusOK
      && after.body.total == before.body.total + body.price
  {
    var sub := DTOToSubscription(lib, body, generated).value;
    var f := Store.ParseFilter(db.casts, "", "", "", to).value;
    assert Store.Matches(sub, f);
    StoreLemmas.TotalAfterCreate(db.table, sub, f);
  }
}

=== FILE: store.dfy ===
/**
 The subscription store (internal/repository/subscription.go) as operations on an
 abstract table. Each SQL statement becomes a pure function from the table to its
 result and the table it leaves behind.
 */
module Store {
  import opened Wrappers
  import opened Records
  import Matching

  /** The `subscription` table, keyed by the primary key `id`. */
  type Table = map<Uuid, Subscription>

  /** Every row is stored under its own (non-NULL) id. */
  ghost predicate Keyed(t: Table) {
    forall k :: k in t ==> t[k].id == PgUuid(k, true)
  }

  /** The outcome of a statement that returns no rows. */
  datatype Outcome = Done | Failed(error: StoreError)

  /** What a writing statement reports, and the table after it. */
  datatype Write = Write(outcome: Outcome, table: Table)

  /** A NULL id compares unknown against every key, so it selects no row. */
  predicate Selects(id: PgUuid, t: Table) {
    id.valid && id.bytes in t
  }

  /** `SELECT … WHERE id = $1`, scanned into one record. */
  function GetById(t: Table, id: PgUuid): (r: Result<Subscription, StoreError>)
    ensures r.Success? <==> Selects(id, t)
    ensures r.Success? ==> r.value == t[id.bytes]
    ensures r.Failure? ==> r.error == NoRows
  {
    if Selects(id, t) then Success(t[id.bytes]) else Failure(NoRows)
  }

  /**
   `INSERT` of all six columns, without looking for an existing row first. The table's
   primary key refuses a NULL or duplicate id.
   */
  function Create(t: Table, sub: Subscription): (w: Write)
    ensures w.outcome.Done? <==> sub.id.valid && sub.id.bytes !in t
    ensures w.outcome.Failed? ==> w.outcome.error == Constraint && w.table == t
    ensures w.outcome.Done? ==>
      && w.table.Keys == t.Keys + {sub.id.bytes}
      && w.table[sub.id.bytes] == sub
    ensures forall k :: k in t ==> k in w.table && w.table[k] == t[k]
    ensures Keyed(t) ==> Keyed(w.table)
  {
    if sub.id.valid && sub.id.bytes !in t then
      Write(Done, t[sub.id.bytes := sub])
    else
      Write(Failed(Constraint), t)
  }

  /** The row `row` after `SET service_name, price, start_date, finish_date` from `sub`. */
  function Rewrite(row: Subscription, sub: Subscription): Subscription {
    row.(serviceName := sub.serviceName, price := sub.price,
         startDate := sub.startDate, finishDate := sub.finishDate)
  }

  /**
   `UPDATE … SET service_name, price, start_date, finish_date WHERE id = $5`; no affected
   row means not found.
   */
  function Update(t: Table, sub: Subscription): (w: Write)
    ensures w.outcome.Done? <==> Selects(sub.id, t)
    ensures w.outcome.Failed? ==> w.outcome.error == NotFound && w.table == t
    ensures w.table.Keys == t.Keys
    ensures forall k :: k in t && !(sub.id.valid && k == sub.id.bytes) ==> w.table[k] == t[k]
    ensures w.outcome.Done? ==>
      var row := w.table[sub.id.bytes];
      && row.id == t[sub.id.bytes].id
      && row.userId == t[sub.id.bytes].userId
      && row.serviceName == sub.serviceName
      && row.price == sub.price
      && row.startDate == sub.startDate
      && row.finishDate == sub.finishDate
    ensures Keyed(t) ==> Keyed(w.table)
  {
    if Selects(sub.id, t) then
      Write(Done, t[sub.id.bytes := Rewrite(t[sub.id.bytes], sub)])
    else
      Write(Failed(NotFound), t)
  }

  /** `DELETE … WHERE id = $1`; no affected row means not found. */
  function Delete(t: Table, id: PgUuid): (w: Write)
    ensures w.outcome.Done? <==> Selects(id, t)
    ensures w.outcome.Failed? ==> w.outcome.error == NotFound && w.table == t
    ensures w.outcome.Done? ==> w.table.Keys == t.Keys - {id.bytes}
    ensures forall k :: k in w.table ==> k in t && w.table[k] == t[k]
    ensures Keyed(t) ==> Keyed(w.table)
  {
    if Selects(id, t) then Write(Done, t - {id.bytes}) else Write(Failed(NotFound), t)
  }

  /** Some key of a non-empty key set; the one choice the scan order rests on. */
  ghost function PickKey(keys: set<Uuid>): (k: Uuid)
    requires keys != {}
    ensures k in keys
  {
    var k :| k in keys; k
  }

  /** The keys of `keys` in the unspecified order in which a sequential scan visits them. */
  ghost function ScanOrder(keys: set<Uuid>): (ks: seq<Uuid>)
    ensures |ks| == |keys|
    ensures forall i :: 0 <= i < |ks| ==> ks[i] in keys
    ensures forall k :: k in keys ==> k in ks
    ensures forall i, j :: 0 <= i < j < |ks| ==> ks[i] != ks[j]
    decreases keys
  {
    if keys == {} then []
    else
      var k := PickKey(keys);
      [k] + ScanOrder(keys - {k})
  }

  /**
   `SELECT` of every row, in no particular order: each row of the table appears, each
   returned record is a row, and (ids being unique) no row appears twice.
   */
  ghost function List(t: Table): (rows: seq<Subscription>)
    ensures |rows| == |t|
    ensures forall k :: k in t ==> t[k] in rows
    ensures forall i :: 0 <= i < |rows| ==> rows[i] in t.Values
    ensures Keyed(t) ==> forall i, j :: 0 <= i < j < |rows| ==> rows[i].id != rows[j].id
  {
    var ks := ScanOrder(t.Keys);
    var rows := RowsAt(t, ks);
    RowsOfScan(t, ks, rows);
    rows
  }

  /** The rows stored under the keys `ks`, in that order. */
  function RowsAt(t: Table, ks: seq<Uuid>): (rows: seq<Subscription>)
    requires forall i :: 0 <= i < |ks| ==> ks[i] in t
    ensures |rows| == |ks| && forall i :: 0 <= i < |ks| ==> rows[i] == t[ks[i]]
  {
    seq(|ks|, i requires 0 <= i < |ks| => t[ks[i]])
  }

  /** The facts `List` promises, for rows read under a scan order of the keys. */
  lemma RowsOfScan(t: Table, ks: seq<Uuid>, rows: seq<Subscription>)
    requires |ks| == |t|
    requires forall i :: 0 <= i < |ks| ==> ks[i] in t
    requires forall k :: k in t ==> k in ks
    requires forall i, j :: 0 <= i < j < |ks| ==> ks[i] != ks[j]
    requires |rows| == |ks| && forall i :: 0 <= i < |ks| ==> rows[i] == t[ks[i]]
    ensures forall k :: k in t ==> t[k] in rows
    ensures forall i :: 0 <= i < |rows| ==> rows[i] in t.Values
    ensures Keyed(t) ==> forall i, j :: 0 <= i < j < |rows| ==> rows[i].id != rows[j].id
  {
  }

  /** The PostgreSQL casts `$1::uuid` and `$3::date` / `$4::date` the TotalCost query applies. */
  datatype Casts = Casts(uuid: string -> Option<Uuid>, date: string -> Option<Day>)

  /** The four TotalCost filters once cast; `None` is an empty filter string, "no constraint". */
  datatype Filter = Filter(user: Option<Uuid>, service: Option<string>, from: Option<Day>, to: Option<Day>)

  /** No constraint at all. */
  const NoFilter := Filter(None, None, None, None)

  /** An optional filter value: the empty string imposes nothing, anything else must cast. */
  function CastOptional<T>(s: string, cast: string -> Option<T>): (r: Result<Option<T>, StoreError>)
    ensures r.Success? <==> s == "" || cast(s).Some?
    ensures r.Success? ==> (r.value.None? <==> s == "") && (r.value.Some? ==> cast(s) == r.value)
    ensures r.Failure? ==> r.error == InvalidCast
  {
    if s == "" then Success(None)
    else match cast(s)
      case None => Failure(InvalidCast)
      case Some(v) => Success(Some(v))
  }

  /** The four query parameters cast as the WHERE clause casts them. */
  function ParseFilter(casts: Casts, userId: string, service: string, from: string, to: string)
    : (r: Result<Filter, StoreError>)
    ensures r.Success? <==>
      && (userId == "" || casts.uuid(userId).Some?)
      && (from == "" || casts.date(from).Some?)
      && (to == "" || casts.date(to).Some?)
    ensures r.Failure? ==> r.error == InvalidCast
    ensures r.Success? ==>
      && (r.value.user.None? <==> userId == "")
      && (r.value.service.None? <==> service == "")
      && (r.value.from.None? <==> from == "")
      && (r.value.to.None? <==> to == "")
      && (r.value.service.Some? ==> r.value.service.value == service)
      && (r.value.user.Some? ==> casts.uuid(userId) == r.value.user)
      && (r.value.from.Some? ==> casts.date(from) == r.value.from)
      && (r.value.to.Some? ==> casts.date(to) == r.value.to)
  {
    match (CastOptional(userId, casts.uuid), CastOptional(from, casts.date), CastOptional(to, casts.date))
    case (Success(u), Success(f), Success(e)) =>
      Success(Filter(u, if service == "" then None else Some(service), f, e))
    case _ => Failure(InvalidCast)
  }

  /**
   The WHERE clause of the TotalCost query. A NULL column fails every comparison, except
   that a NULL finish date passes the `to` conjunct through `finish_date IS NULL`.
   The service conjunct is the case-insensitive substring test; see `Matching` for how
   the query's ILIKE pattern departs from it.
   */
  predicate Matches(row: Subscription, f: Filter)
    ensures f == NoFilter ==> Matches(row, f)
    ensures f.user.Some? && !(row.userId.valid && row.userId.bytes == f.user.value) ==> !Matches(row, f)
    ensures f.service.Some? && !Matching.ContainsFold(row.serviceName, f.service.value) ==> !Matches(row, f)
    ensures f.from.Some? && !(row.startDate.valid && row.startDate.day >= f.from.value) ==> !Matches(row, f)
    ensures f.to.Some? && row.finishDate.valid && row.finishDate.day > f.to.value ==> !Matches(row, f)
    ensures !row.finishDate.valid ==> PassesTo(row, f.to)
  {
    && (f.user.None? || (row.userId.valid && row.userId.bytes == f.user.value))
    && (f.service.None? || Matching.ContainsFold(row.serviceName, f.service.value))
    && (f.from.None? || (row.startDate.valid && row.startDate.day >= f.from.value))
    && PassesTo(row, f.to)
  }

  /** `$4 = '' OR finish_date <= $4::date OR finish_date IS NULL`. */
  predicate PassesTo(row: Subscription, to: Option<Day>) {
    to.None? || (row.finishDate.valid && row.finishDate.day <= to.value) || !row.finishDate.valid
  }

  /** What one row adds to the sum. */
  function Contribution(row: Subscription, f: Filter): int {
    if Matches(row, f) then row.price else 0
  }

  /** The sum of `price` over the rows under `keys` that satisfy `f`. */
  ghost function SumOver(t: Table, keys: set<Uuid>, f: Filter): int
    requires keys <= t.Keys
    decreases keys
  {
    if keys == {} then 0
    else
      var k := PickKey(keys);
      Contribution(t[k], f) + SumOver(t, keys - {k}, f)
  }

  /** Removing any one key from the sum takes off exactly that row's contribution. */
  lemma {:induction false} SumRemove(t: Table, keys: set<Uuid>, f: Filter, k: Uuid)
    requires keys <= t.Keys && k in keys
    ensures SumOver(t, keys, f) == Contribution(t[k], f) + SumOver(t, keys - {k}, f)
    decreases keys
  {
    var j := PickKey(keys);
    if j != k {
      SumRemove(t, keys - {j}, f, k);
      SumRemove(t, keys - {k}, f, j);
      assert keys - {j} - {k} == keys - {k} - {j};
    }
  }

  /** When no row under `keys` satisfies the filter the sum is 0. */
  lemma {:induction false} SumOfNothing(t: Table, keys: set<Uuid>, f: Filter)
    requires keys <= t.Keys
    requires forall k :: k in keys ==> !Matches(t[k], f)
    ensures SumOver(t, keys, f) == 0
    decreases keys
  {
    if keys != {} {
      SumOfNothing(t, keys - {PickKey(keys)}, f);
    }
  }

  /**
   `COALESCE(SUM(price), 0)` over the rows that satisfy `f`: 0 when no row does, and
   otherwise each row's price counted once, whichever row the scan reaches first.
   */
  ghost function Total(t: Table, f: Filter): (r: int)
    ensures (forall k :: k in t ==> !Matches(t[k], f)) ==> r == 0
    ensures forall k :: k in t ==> r == Contribution(t[k], f) + SumOver(t, t.Keys - {k}, f)
  {
    assert (forall k :: k in t ==> !Matches(t[k], f)) ==> SumOver(t, t.Keys, f) == 0 by {
      if forall k :: k in t ==> !Matches(t[k], f) {
        SumOfNothing(t, t.Keys, f);
      }
    }
    assert forall k :: k in t ==> SumOver(t, t.Keys, f) == Contribution(t[k], f) + SumOver(t, t.Keys - {k}, f) by {
      forall k | k in t
        ensures SumOver(t, t.Keys, f) == Contribution(t[k], f) + SumOver(t, t.Keys - {k}, f)
      {
        SumRemove(t, t.Keys, f, k);
      }
    }
    SumOver(t, t.Keys, f)
  }

  /**
   The TotalCost query: casts its four filter strings and sums the matching prices;
   no matching row gives 0, not an error.
   */
  ghost function TotalCost(t: Table, casts: Casts, userId: string, service: string, from: string, to: string)
    : (r: Result<int, StoreError>)
    ensures r.Failure? <==> ParseFilter(casts, userId, service, from, to).Failure?
    ensures r.Failure? ==> r.error == InvalidCast
    ensures userId == "" && service == "" && from == "" && to == "" ==> r == Success(Total(t, NoFilter))
    ensures ParseFilter(casts, userId, service, from, to).Success? ==>
      r == Success(Total(t, ParseFilter(casts, userId, service, from, to).value))
    ensures t == map[] ==> r.Success? ==> r.value == 0
  {
    match ParseFilter(casts, userId, service, from, to)
    case Failure(e) => Failure(e)
    case Success(f) => Success(Total(t, f))
  }

  /** The calls of the repository interface (internal/repository/types.go). */
  datatype Call =
    | GetByIdCall(id: PgUuid)
    | CreateCall(sub: Subscription)
    | UpdateCall(sub: Subscription)
    | DeleteCall(id: PgUuid)
    | ListCall
    | TotalCostCall(userId: string, service: string, from: string, to: string)
}

=== FILE: store_lemmas.dfy ===
/**
 Properties of the store (internal/repository/subscription.go) that relate several
 operations: reads after writes, and how each write moves the TotalCost sum.
 */
module StoreLemmas {
  import opened Wrappers
  import opened Records
  import opened Store

  /** The plain sum of `price` over a sequence of rows. */
  function PriceSum(rows: seq<Subscription>): int {
    if |rows| == 0 then 0 else rows[0].price + PriceSum(rows[1..])
  }

  /** A created row reads back as it was given, all six columns. */
  lemma CreateThenGet(t: Table, sub: Subscription)
    requires Create(t, sub).outcome.Done?
    ensures GetById(Create(t, sub).table, sub.id) == Success(sub)
  {
  }

  /** A deleted row no longer reads back; every other row still does, unchanged. */
  lemma DeleteThenGet(t: Table, id: PgUuid, other: PgUuid)
    requires Delete(t, id).outcome.Done?
    requires other != id
    ensures GetById(Delete(t, id).table, id) == Failure(NoRows)
    ensures GetById(Delete(t, id).table, other) == GetById(t, other)
  {
  }

  /**
   An updated row reads back with the four SET columns from the request and the id and
   user id it already had, whatever the request carried in those two.
   */
  lemma UpdateThenGet(t: Table, sub: Subscription)
    requires Update(t, sub).outcome.Done?
    ensures GetById(Update(t, sub).table, sub.id) == Success(Rewrite(t[sub.id.bytes], sub))
    ensures Keyed(t) ==> GetById(Update(t, sub).table, sub.id).value.id == sub.id
  {
  }

  /** The sum depends only on the rows under the keys summed. */
  lemma {:induction false} SumAgree(t1: Table, t2: Table, keys: set<Uuid>, f: Filter)
    requires keys <= t1.Keys && keys <= t2.Keys
    requires forall k :: k in keys ==> t1[k] == t2[k]
    ensures SumOver(t1, keys, f) == SumOver(t2, keys, f)
    decreases keys
  {
    if keys != {} {
      var k := PickKey(keys);
      SumAgree(t1, t2, keys - {k}, f);
    }
  }

  /** A successful Create adds the new row's contribution to every TotalCost sum. */
  lemma TotalAfterCreate(t: Table, sub: Subscription, f: Filter)
    requires Create(t, sub).outcome.Done?
    ensures Total(Create(t, sub).table, f) == Total(t, f) + Contribution(sub, f)
  {
    var t' := Create(t, sub).table;
    var k := sub.id.bytes;
    SumRemove(t', t'.Keys, f, k);
    assert t'.Keys - {k} == t.Keys;
    SumAgree(t', t, t.Keys, f);
  }

  /** A successful Delete takes the removed row's contribution out of every TotalCost sum. */
  lemma TotalAfterDelete(t: Table, id: PgUuid, f: Filter)
    requires Delete(t, id).outcome.Done?
    ensures Total(Delete(t, id).table, f) == Total(t, f) - Contribution(t[id.bytes], f)
  {
    var t' := Delete(t, id).table;
    SumRemove(t, t.Keys, f, id.bytes);
    assert t.Keys - {id.bytes} == t'.Keys;
    SumAgree(t, t', t'.Keys, f);
  }

  /** A successful Update swaps the old row's contribution for the rewritten row's. */
  lemma TotalAfterUpdate(t: Table, sub: Subscription, f: Filter)
    requires Update(t, sub).outcome.Done?
    ensures Total(Update(t, sub).table, f)
            == Total(t, f) - Contribution(t[sub.id.bytes], f)
               + Contribution(Rewrite(t[sub.id.bytes], sub), f)
  {
    var t' := Update(t, sub).table;
    var k := sub.id.bytes;
    SumRemove(t, t.Keys, f, k);
    SumRemove(t', t'.Keys, f, k);
    SumAgree(t, t', t.Keys - {k}, f);
  }

  /** TotalCost over filters that no row satisfies reports 0, not an error. */
  lemma NoMatchTotalIsZero(t: Table, casts: Casts, userId: string, service: string, from: string, to: string)
    requires ParseFilter(casts, userId, service, from, to).Success?
    requires forall k :: k in t ==> !Matches(t[k], ParseFilter(casts, userId, service, from, to).value)
    ensures TotalCost(t, casts, userId, service, from, to) == Success(0)
  {
  }

  /** The scan's rows are the first picked key's row followed by the rows of the rest. */
  lemma ScanRowsStep(t: Table, keys: set<Uuid>)
    requires keys <= t.Keys && keys != {}
    ensures RowsAt(t, ScanOrder(keys))
            == [t[PickKey(keys)]] + RowsAt(t, ScanOrder(keys - {PickKey(keys)}))
  {
    var k := PickKey(keys);
    var rest := ScanOrder(keys - {k});
    assert ScanOrder(keys) == [k] + rest;
  }

  /** A price sum splits off its first row. */
  lemma PriceSumCons(row: Subscription, rows: seq<Subscription>)
    ensures PriceSum([row] + rows) == row.price + PriceSum(rows)
  {
    assert ([row] + rows)[1..] == rows;
  }

  /** Unfiltered, the sum over `keys` is the price sum of their rows in scan order. */
  lemma {:induction false} UnfilteredSumIsScanSum(t: Table, keys: set<Uuid>)
    requires keys <= t.Keys
    ensures SumOver(t, keys, NoFilter) == PriceSum(RowsAt(t, ScanOrder(keys)))
    decreases keys
  {
    if keys != {} {
      var k := PickKey(keys);
      UnfilteredSumIsScanSum(t, keys - {k});
      ScanRowsStep(t, keys);
      PriceSumCons(t[k], RowsAt(t, ScanOrder(keys - {k})));
      assert Contribution(t[k], NoFilter) == t[k].price;
    }
  }

  /**
   With all four filter strings empty, TotalCost is the sum of `price` over every row
   the List query returns.
   */
  lemma UnfilteredTotalIsListSum(t: Table, casts: Casts)
    ensures TotalCost(t, casts, "", "", "", "") == Success(PriceSum(List(t)))
  {
    UnfilteredSumIsScanSum(t, t.Keys);
  }
}

=== FILE: wrappers.dfy ===
/** Failure-compatible result types shared by every module of the model. */
module Wrappers {

  /** A value that may be absent. */
  datatype Option<+T> = None | Some(value: T)

  /** The outcome of a call that either produces a value or fails with an error. */
  datatype Result<+R, +E> = Success(value: R) | Failure(error: E)
}
